=== FILE: README.md ===
# MyCommentGenerator in Dafny

A model of `MyCommentGenerator`, a MyBatis-Generator `CommentGenerator`
plug-in that writes Javadoc comments into generated classes, fields and
mapper methods. Each hook takes a few pieces of metadata: a table name, a
column's name and remarks, or a method's name, parameters and return type.
It appends a fixed template of Javadoc lines to the artifact. Here each hook
is a pure function from an immutable configuration record and that
metadata to the sequence of lines it appends.

Modules:

- `JavaText` (`java_text.dfy`) models the Java string behaviour the hooks rely on:
  - a null reference rendered as "null";
  - `String.contains`;
  - ASCII `toLowerCase`;
  - `replace("\n", " ")`;
  - `StringUtility.isTrue`.
- `GeneratorConfig` (`generator_config.dfy`) holds the generator's state:
  - the merged property bag;
  - the `suppressDate` and `suppressAllComments` flags;
  - the date frozen at construction;
  - `addConfigurationProperties` and `getDateString`.
- `MethodClassifier` (`method_classifier.dfy`) holds the keyword lines of `addGeneralMethodComment`:
  - four independent substring tests;
  - case-sensitive primary tests;
  - a case-insensitive "select" test;
  - an independent rule table that the method body is proved to follow.
- `ClassifierExamples` (`classifier_examples.dfy`) states the classifier's output for mapper method names and for names that exercise its case rules.
- `CommentHooks` (`comment_hooks.dfy`) models every hook that appends lines.
- `CommentProperties` (`comment_properties.dfy`) proves properties across the hooks.

A hook that reads `method.getParameters().get(0)` returns an `Outcome`. It
is `Appended(lines)` normally. When the method has no parameters it is
`OutOfBounds(lines)`, holding the lines appended before the exception
escaped.

Notes on behaviour, read from the code:

- The model-class header appends 18 lines (lines 294-313).
- No hook escapes what it interpolates. A star followed by a slash in the remarks, the table text, the table configuration, the author, the timestamp, a parameter name or a return type (lines 89, 214, 265, 267, 299, 301, 344-346, 371-373) ends the comment early. The block predicates therefore separate the shape of a block (a delimited block) from its being read as one comment (a Javadoc block).
- The classifier's primary tests are case-sensitive. So `"selectByDelete"` gets only the query line: its "Delete" is capitalised. `"insertSelective"` gets the tagged save line but no query line.
- When dates are suppressed, the two-argument class comment shows the text "null" where the date would be. `getDateString` returns null and `StringBuilder.append` writes "null".
- The three-argument class comment builds an `@author` line from the user name and the date, but never appends it. So its output depends on neither the date nor `markAsDoNotDelete`.
- `addConfigurationProperties` computes both flags from the incoming properties only. A later call without a key turns its flag off, although the merged bag still holds the earlier value. The author shown by the model-class header comes from the merged bag, so it outlives later calls.

## Model

| member | source | states |
|---|---|---|
| JavaText.Render | src/main/java/org/mybatis/generator/MyCommentGenerator.java:91 | `StringBuilder.append` and `+` write a non-null string as itself and a null reference as the four characters "null" |
| JavaText.RenderNullAmbiguous | src/main/java/org/mybatis/generator/MyCommentGenerator.java:214 | a written null and the written string "null" are the same text, and no other reference writes as "null" |
| JavaText.Contains | src/main/java/org/mybatis/generator/MyCommentGenerator.java:243-260 | `name.contains(w)`: some window of the name equals `w`, so the empty word is contained in every name |
| JavaText.IndexFrom | src/main/java/org/mybatis/generator/MyCommentGenerator.java:243 | the search from a position finds an occurrence at or after it with none in between, or -1 when no occurrence lies at or after it |
| JavaText.IndexOf | src/main/java/org/mybatis/generator/MyCommentGenerator.java:243 | `indexOf`, by which `contains` is defined, is non-negative iff the word is contained, and is then its first occurrence |
| JavaText.LowerChar | src/main/java/org/mybatis/generator/MyCommentGenerator.java:244 | upper-case ASCII letters lower to the letter whose upper case they are; every other character is kept |
| JavaText.LoweredOccurrence | src/main/java/org/mybatis/generator/MyCommentGenerator.java:244 | an occurrence of a word is an occurrence of its lower case at the same index once the name is lowered |
| JavaText.LoweredContains | src/main/java/org/mybatis/generator/MyCommentGenerator.java:244 | lowering the name keeps every containment, with the word lowered too |
| JavaText.ToLowerCase | src/main/java/org/mybatis/generator/MyCommentGenerator.java:244 | lower-casing keeps the length and lowers each ASCII letter, leaving every other character alone |
| JavaText.CollapseNewlines | src/main/java/org/mybatis/generator/MyCommentGenerator.java:92 | `replace("\n", " ")` keeps the length, turns each newline into a space, changes nothing else and leaves no newline |
| JavaText.CollapseChar | src/main/java/org/mybatis/generator/MyCommentGenerator.java:92 | the replacement turns a newline into a space and keeps every other character, so it never yields a newline |
| JavaText.CollapseConcat | src/main/java/org/mybatis/generator/MyCommentGenerator.java:92 | replacing newlines in a concatenation replaces them in each part separately |
| JavaText.CollapseFixesNewlineFree | src/main/java/org/mybatis/generator/MyCommentGenerator.java:92 | a newline-free line passes through the replacement unchanged |
| JavaText.CollapseIdempotent | src/main/java/org/mybatis/generator/MyCommentGenerator.java:92 | replacing twice gives the same line as replacing once |
| JavaText.CollapseKeepsPrefix | src/main/java/org/mybatis/generator/MyCommentGenerator.java:88-92 | the " * " a body line starts with survives the newline replacement |
| JavaText.NoCloserNotContains | src/main/java/org/mybatis/generator/MyCommentGenerator.java:92 | a text holds no star immediately followed by a slash iff it does not contain "*/" |
| JavaText.NoCloserConcat | src/main/java/org/mybatis/generator/MyCommentGenerator.java:88-91 | an appended text holds a star followed by a slash iff a part does or the first part ends in a star and the second begins with a slash |
| JavaText.NoCloserSpaced | src/main/java/org/mybatis/generator/MyCommentGenerator.java:89-91 | two texts appended around a space hold a star followed by a slash iff one of them does |
| JavaText.CollapseKeepsNoCloser | src/main/java/org/mybatis/generator/MyCommentGenerator.java:92 | the newline replacement neither makes nor removes a star followed by a slash |
| JavaText.IsTrue | src/main/java/org/mybatis/generator/MyCommentGenerator.java:142-143 | `isTrue` is false for null and true only for a four-character string (one equal to "true" ignoring ASCII case) |
| JavaText.IsTrueSpellings | src/main/java/org/mybatis/generator/MyCommentGenerator.java:142-143 | `isTrue` accepts exactly the four-letter spellings of "true" in any mix of cases, and never null |
| GeneratorConfig.GetProperty | src/main/java/org/mybatis/generator/MyCommentGenerator.java:142 | a property lookup gives the stored value when the key is present and null otherwise |
| GeneratorConfig.NewGenerator | src/main/java/org/mybatis/generator/MyCommentGenerator.java:66-72 | a new generator has an empty bag, both flags off and the given date frozen, so it prints that date |
| GeneratorConfig.AddConfigurationProperties | src/main/java/org/mybatis/generator/MyCommentGenerator.java:140-144 | the merged bag holds the union of keys with incoming values winning and other keys kept; each flag is on iff the incoming properties hold its key with a true spelling; the date is untouched |
| GeneratorConfig.GetDateString | src/main/java/org/mybatis/generator/MyCommentGenerator.java:151-157 | the date is the frozen construction date iff dates are not suppressed, null otherwise |
| GeneratorConfig.ConfigureAll | src/main/java/org/mybatis/generator/MyCommentGenerator.java:140-144 | after any sequence of configure calls the frozen date is unchanged and each flag is what the last call's properties say |
| GeneratorConfig.DateFrozenAtConstruction | src/main/java/org/mybatis/generator/MyCommentGenerator.java:151-157 | however often a new generator is configured, it prints the construction date or null, and null iff the last call suppressed dates |
| GeneratorConfig.ConfigureIdempotent | src/main/java/org/mybatis/generator/MyCommentGenerator.java:140-144 | configuring twice with the same properties leaves the state of configuring once |
| GeneratorConfig.FlagsReadFromIncomingOnly | src/main/java/org/mybatis/generator/MyCommentGenerator.java:142-143 | the flags after a call are the same whatever state the generator was in before |
| GeneratorConfig.LaterCallResetsFlag | src/main/java/org/mybatis/generator/MyCommentGenerator.java:141-143 | after a call setting `suppressAllComments` to "true", a call without the key turns the flag off while the bag still holds "true" |
| MethodClassifier.MentionsSelect | src/main/java/org/mybatis/generator/MyCommentGenerator.java:244 | the lower-cased-name test for "select" holds whenever the case-sensitive query test does |
| MethodClassifier.MentionsSelectAnySpelling | src/main/java/org/mybatis/generator/MyCommentGenerator.java:254 | a name containing "select" in any mix of ASCII case is tagged |
| MethodClassifier.TaggedOnlyBySpelling | src/main/java/org/mybatis/generator/MyCommentGenerator.java:254 | conversely, a tagged name contains some spelling of "select" in some mix of ASCII case, so the two lemmas make tagging an if-and-only-if |
| MethodClassifier.KeywordLines | src/main/java/org/mybatis/generator/MyCommentGenerator.java:243-262 | at most four keyword lines, and none iff the name contains none of the four keywords case-sensitively |
| MethodClassifier.KeywordLinesFollowRuleTable | src/main/java/org/mybatis/generator/MyCommentGenerator.java:243-262 | the keyword lines equal the independent rule table applied rule by rule in the order insert, delete, update, select |
| MethodClassifier.KeywordLinesOrdered | src/main/java/org/mybatis/generator/MyCommentGenerator.java:243-262 | at most four keyword lines, strictly in the order insert, delete, update, select |
| MethodClassifier.KeywordLineMembership | src/main/java/org/mybatis/generator/MyCommentGenerator.java:243-262 | each of the six lines appears iff its own case-sensitive keyword test holds, with the tagged line iff the lower-cased name contains "select" and the untagged one otherwise |
| ClassifierExamples.InsertExample | src/main/java/org/mybatis/generator/MyCommentGenerator.java:243-249 | "insert" gets only the untagged save line |
| ClassifierExamples.InsertSelectiveExample | src/main/java/org/mybatis/generator/MyCommentGenerator.java:243-262 | "insertSelective" gets the tagged save line and no query line |
| ClassifierExamples.CapitalisedInsertExample | src/main/java/org/mybatis/generator/MyCommentGenerator.java:243-262 | "InsertSelective" gets no keyword line at all |
| ClassifierExamples.InsertWithSelectExample | src/main/java/org/mybatis/generator/MyCommentGenerator.java:243-262 | "insertWithSelect" gets only the tagged save line |
| ClassifierExamples.UpdateSelectTagExample | src/main/java/org/mybatis/generator/MyCommentGenerator.java:253-262 | "updateSelectTag" gets only the tagged update line |
| ClassifierExamples.SelectByDeleteExample | src/main/java/org/mybatis/generator/MyCommentGenerator.java:250-262 | "selectByDelete" gets only the query line |
| ClassifierExamples.SelectAndDeleteExample | src/main/java/org/mybatis/generator/MyCommentGenerator.java:250-262 | "selectAnddelete" gets the delete line, then the query line |
| ClassifierExamples.DeleteByPrimaryKeyExample | src/main/java/org/mybatis/generator/MyCommentGenerator.java:250-252 | "deleteByPrimaryKey" gets only the delete line |
| ClassifierExamples.UpdateByPrimaryKeyExample | src/main/java/org/mybatis/generator/MyCommentGenerator.java:253-259 | "updateByPrimaryKey" gets only the untagged update line |
| ClassifierExamples.SelectByPrimaryKeyExample | src/main/java/org/mybatis/generator/MyCommentGenerator.java:260-262 | "selectByPrimaryKey" gets only the query line |
| CommentHooks.BodyLine | src/main/java/org/mybatis/generator/MyCommentGenerator.java:211-215 | a " * " line built and passed through the newline replacement keeps its prefix, its length and every non-newline character, and holds no newline |
| CommentHooks.BlockOfBodyLines | src/main/java/org/mybatis/generator/MyCommentGenerator.java:263-268 | an opening line, lines that each begin with " *" and hold no newline, and " */" form a delimited block, which is one comment iff no body line holds a star followed by a slash |
| CommentHooks.BodyLineCloser | src/main/java/org/mybatis/generator/MyCommentGenerator.java:211-215 | a body line escapes nothing: it holds a star followed by a slash iff the interpolated text does |
| CommentHooks.TagBlock | src/main/java/org/mybatis/generator/MyCommentGenerator.java:337-348 | the remarks line and a tag line between the delimiters form a delimited block that is one comment iff neither the name nor the remarks hold a star followed by a slash |
| CommentHooks.ClassComment | src/main/java/org/mybatis/generator/MyCommentGenerator.java:81-94 | nothing iff all comments are suppressed, otherwise a three-line delimited block (opening line, one " * " body line, closing line), which is one comment iff neither the table text nor the written date holds a star followed by a slash |
| CommentHooks.ClassCommentMarked | src/main/java/org/mybatis/generator/MyCommentGenerator.java:104-121 | nothing iff all comments are suppressed, otherwise a three-line delimited block without the `@author` line, which is one comment iff the table text holds no star followed by a slash |
| CommentHooks.EnumComment | src/main/java/org/mybatis/generator/MyCommentGenerator.java:167-178 | nothing iff all comments are suppressed, otherwise a three-line delimited block (opening line, one " * " body line, closing line), which is one comment iff the table text holds no star followed by a slash |
| CommentHooks.FieldComment | src/main/java/org/mybatis/generator/MyCommentGenerator.java:187-197 | nothing iff all comments are suppressed, otherwise a three-line delimited block (opening line, one " * " body line, closing line), which is one comment iff the table text holds no star followed by a slash |
| CommentHooks.ColumnFieldComment | src/main/java/org/mybatis/generator/MyCommentGenerator.java:207-217 | nothing iff all comments are suppressed, otherwise a three-line delimited block (opening line, one " * " body line, closing line), which is one comment iff the written remarks hold no star followed by a slash |
| CommentHooks.GetterComment | src/main/java/org/mybatis/generator/MyCommentGenerator.java:333-349 | nothing iff all comments are suppressed, otherwise a four-line delimited block, which is one comment iff neither the column name nor the written remarks hold a star followed by a slash |
| CommentHooks.SetterComment | src/main/java/org/mybatis/generator/MyCommentGenerator.java:359-376 | nothing iff suppressed; the exception iff not suppressed and the method has no parameters, after two lines; otherwise a four-line delimited block, which is one comment iff neither parameter 0's name nor the written remarks hold a star followed by a slash |
| CommentHooks.GeneralMethodComment | src/main/java/org/mybatis/generator/MyCommentGenerator.java:226-269 | nothing iff suppressed or the method is `toString`; the exception iff otherwise the method has no parameters, after the keyword lines plus two; otherwise the keyword lines plus five |
| CommentHooks.CreationLines | src/main/java/org/mybatis/generator/MyCommentGenerator.java:295-303 | the description and creation fields are seven lines |
| CommentHooks.ModelClassComment | src/main/java/org/mybatis/generator/MyCommentGenerator.java:289-314 | always eighteen lines |
| CommentProperties.BodyLineVerbatim | src/main/java/org/mybatis/generator/MyCommentGenerator.java:211-215 | a body line of newline-free text is " * " and the text, which can be read back from it |
| CommentProperties.SuppressionSilencesHooks | src/main/java/org/mybatis/generator/MyCommentGenerator.java:82-84 | with all comments suppressed every hook appends nothing (the same guard stands at lines 105, 168, 188, 208, 228, 334 and 360), except the model-class header, which is as with no flag set |
| CommentProperties.ToStringGetsNoComment | src/main/java/org/mybatis/generator/MyCommentGenerator.java:231-235 | a method named "toString" gets no lines, whatever the flags |
| CommentProperties.GeneralMethodShape | src/main/java/org/mybatis/generator/MyCommentGenerator.java:242-268 | with parameters: k+5 lines, k at most 4; the opening line, the keyword lines in rank order, " * ", the `@param` line of parameter 0, the `@return` line of the return type, the closing line |
| CommentProperties.GeneralMethodWithoutParameters | src/main/java/org/mybatis/generator/MyCommentGenerator.java:242-264 | without parameters: the opening line, the keyword lines and " * ", then the exception |
| CommentProperties.KeywordLinesAreBodyLines | src/main/java/org/mybatis/generator/MyCommentGenerator.java:243-262 | every keyword line begins with " *" and holds no newline |
| CommentProperties.TrailerLinesCloser | src/main/java/org/mybatis/generator/MyCommentGenerator.java:263-267 | the blank, `@param` and `@return` lines hold a star followed by a slash iff the parameter name or the return type does |
| CommentProperties.GeneralMethodIsJavadocBlock | src/main/java/org/mybatis/generator/MyCommentGenerator.java:263-268 | when the parameter name and return type hold no newline the general-method comment is a delimited block, and it is one comment iff neither of them holds a star followed by a slash (the keyword lines never do) |
| CommentProperties.ClassCommentDateLine | src/main/java/org/mybatis/generator/MyCommentGenerator.java:86-93 | the middle line is " * ", the table, a space, and the date, or "null" when dates are suppressed |
| CommentProperties.ClassCommentMarkedIgnoresDate | src/main/java/org/mybatis/generator/MyCommentGenerator.java:104-121 | the three-argument class comment depends only on the suppression flag and the table: not on the date, `suppressDate`, the properties or `markAsDoNotDelete` |
| CommentProperties.ClassCommentMarkedShowsTable | src/main/java/org/mybatis/generator/MyCommentGenerator.java:109-120 | unless suppressed, the three-argument class comment shows a newline-free table after " *  * " between the delimiters |
| CommentProperties.EnumAndFieldCommentsAgree | src/main/java/org/mybatis/generator/MyCommentGenerator.java:172-196 | the enum and table-level field comments are the same block, " * " and the table between the delimiters |
| CommentProperties.LabelledLineVerbatim | src/main/java/org/mybatis/generator/MyCommentGenerator.java:343-347 | a tag line built from newline-free parts (tag, name, a space, the remarks) is written verbatim after " * " |
| CommentProperties.GetterVerbatim | src/main/java/org/mybatis/generator/MyCommentGenerator.java:337-348 | with newline-free inputs: the remarks line, then `@return`, the column name and the remarks |
| CommentProperties.SetterNamesFirstParameter | src/main/java/org/mybatis/generator/MyCommentGenerator.java:363-375 | the setter comment depends on the method only through parameter 0's name, and shows it with the remarks in its `@param` line |
| CommentProperties.ColumnFieldRemarks | src/main/java/org/mybatis/generator/MyCommentGenerator.java:211-216 | the column field comment shows the remarks, and "null" when there are none |
| CommentProperties.ModelClassIgnoresFlags | src/main/java/org/mybatis/generator/MyCommentGenerator.java:289-314 | the model-class header depends on the configuration only through the property bag |
| CommentProperties.ModelClassAuthor | src/main/java/org/mybatis/generator/MyCommentGenerator.java:291-301 | the author line shows the last configured "author", which a later call without it does not clear, and "null" when it was never set |
| CommentProperties.CreationLinesCloser | src/main/java/org/mybatis/generator/MyCommentGenerator.java:295-303 | the description and creation fields hold a star followed by a slash iff the table configuration, the remarks, the author or the timestamp does |
| CommentProperties.ModelClassIsJavadocBlock | src/main/java/org/mybatis/generator/MyCommentGenerator.java:294-313 | with newline-free inputs the model-class header is a delimited block, and it is one comment iff none of the table configuration, the written remarks, the written author and the timestamp holds a star followed by a slash |

## Left out

- Logging through log4j (lines 39, 108, 171, 279, 292) affects no appended line.
- The wall clock and `SimpleDateFormat` (lines 71, 293, 302) are not modelled. The frozen "yyyy-MM-dd" date is a parameter of `NewGenerator`, and the model-class timestamp is a parameter of `ModelClassComment`.
- `System.getProperties()` and the `user.name` lookup (lines 68, 117) are not modelled. Their only use is the `@author` line that is never appended.
- The hooks that append nothing are not modelled: `addComment(XmlElement)` (lines 130-132), `addRootComment` (lines 322-323) and `addJavaFileComment` (lines 277-280). The last one only logs.
- MyBatis's DOM and introspection types are represented by the strings the hooks read from them:
  - `IntrospectedTable.getFullyQualifiedTable()`, `TableConfiguration.toString()` and `getRemarks()`;
  - `Method.getName`, `getParameters` and `getReturnType().getShortName()`;
  - `addJavaDocLine`, modelled as the returned sequence of lines.
- A method without a return type (a null `getReturnType()`) is not modelled. The DOM type that would throw there is not part of this model.
- JavaText.ToLowerCase lowers ASCII letters only. Java's locale-dependent Unicode `toLowerCase` is not modelled.
- JavaText.IsTrue: the body of `StringUtility.isTrue` (imported at MyCommentGenerator.java:17) is not part of this model; the model takes it to be equality with "true" ignoring ASCII case, with null giving false.
- Strings are sequences of Dafny characters, not UTF-16 code units; `String.contains` is modelled exactly on them.

=== FILE: classifier_examples.dfy ===
/**
  The keyword classifier on concrete method names: the mapper methods
  MyBatis generates and names that exercise the case rules. Each search is
  settled with the step lemmas of `JavaText`; a search that has to rule out
  every window gets a lemma of its own.
 */
module ClassifierExamples {
  import opened JavaText
  import opened MethodClassifier

  lemma InsertHasInsert()
    ensures Contains("insert", "insert")
  {
    var s := "insert";
    ContainsInfix("", "insert", "");
    assert s == "" + "insert" + "";
  }

  lemma InsertLacksDelete()
    ensures !Contains("insert", "delete")
  {
    var s := "insert";
    AbsentCharNotContained(s, "delete", 0);
  }

  lemma InsertLacksUpdate()
    ensures !Contains("insert", "update")
  {
    var s := "insert";
    AbsentCharNotContained(s, "update", 0);
  }

  lemma InsertLacksSelect()
    ensures !Contains("insert", "select")
  {
    var s := "insert";
    AbsentCharNotContained(s, "select", 2);
  }

  lemma InsertOmitsSelect()
    ensures !MentionsSelect("insert")
  {
    AbsentLetterNotContainedLowered("insert", "select", 2);
  }

  /** The plain "insert" mapper method is an untagged save. */
  lemma InsertExample()
    ensures KeywordLines("insert") == [SaveUntagged]
  {
    InsertHasInsert();
    InsertLacksDelete();
    InsertLacksUpdate();
    InsertLacksSelect();
    InsertOmitsSelect();
  }

  lemma InsertSelectiveHasInsert()
    ensures Contains("insertSelective", "insert")
  {
    var s := "insertSelective";
    ContainsInfix("", "insert", "Selective");
    assert s == "" + "insert" + "Selective";
  }

  lemma InsertSelectiveLacksDelete()
    ensures !Contains("insertSelective", "delete")
  {
    var s := "insertSelective";
    AbsentCharNotContained(s, "delete", 0);
  }

  lemma InsertSelectiveLacksUpdate()
    ensures !Contains("insertSelective", "update")
  {
    var s := "insertSelective";
    AbsentCharNotContained(s, "update", 0);
  }

  lemma InsertSelectiveLacksSelect()
    ensures !Contains("insertSelective", "select")
  {
    var s := "insertSelective";
    NoneBeforeNext(s, "select", 0, 0);
    NoneBeforeNext(s, "select", 1, 0);
    NoneBeforeNext(s, "select", 2, 2);
    NoneBeforeNext(s, "select", 3, 0);
    NoneBeforeNext(s, "select", 4, 0);
    NoneBeforeNext(s, "select", 5, 0);
    NoneBeforeNext(s, "select", 6, 0);
    NoneBeforeNext(s, "select", 7, 0);
    NoneBeforeNext(s, "select", 8, 0);
    NoneBeforeNext(s, "select", 9, 0);
    NoneAtAll(s, "select");
  }

  lemma InsertSelectiveMentionsSelect()
    ensures MentionsSelect("insertSelective")
  {
    LoweredContainsInfix("insert", "Select", "ive", "select");
    assert "insertSelective" == "insert" + "Select" + "ive";
  }

  /** "insertSelective" is a tagged save; its "Select" is capitalised, so
      it gets no query line. */
  lemma InsertSelectiveExample()
    ensures KeywordLines("insertSelective") == [SaveTagged]
  {
    InsertSelectiveHasInsert();
    InsertSelectiveLacksDelete();
    InsertSelectiveLacksUpdate();
    InsertSelectiveLacksSelect();
    InsertSelectiveMentionsSelect();
  }

  lemma CapitalisedInsertLacksInsert()
    ensures !Contains("InsertSelective", "insert")
  {
    var s := "InsertSelective";
    NoneBeforeNext(s, "insert", 0, 0);
    NoneBeforeNext(s, "insert", 1, 0);
    NoneBeforeNext(s, "insert", 2, 0);
    NoneBeforeNext(s, "insert", 3, 0);
    NoneBeforeNext(s, "insert", 4, 0);
    NoneBeforeNext(s, "insert", 5, 0);
    NoneBeforeNext(s, "insert", 6, 0);
    NoneBeforeNext(s, "insert", 7, 0);
    NoneBeforeNext(s, "insert", 8, 0);
    NoneBeforeNext(s, "insert", 9, 0);
    NoneAtAll(s, "insert");
  }

  lemma CapitalisedInsertLacksDelete()
    ensures !Contains("InsertSelective", "delete")
  {
    var s := "InsertSelective";
    AbsentCharNotContained(s, "delete", 0);
  }

  lemma CapitalisedInsertLacksUpdate()
    ensures !Contains("InsertSelective", "update")
  {
    var s := "InsertSelective";
    AbsentCharNotContained(s, "update", 0);
  }

  lemma CapitalisedInsertLacksSelect()
    ensures !Contains("InsertSelective", "select")
  {
    var s := "InsertSelective";
    NoneBeforeNext(s, "select", 0, 0);
    NoneBeforeNext(s, "select", 1, 0);
    NoneBeforeNext(s, "select", 2, 2);
    NoneBeforeNext(s, "select", 3, 0);
    NoneBeforeNext(s, "select", 4, 0);
    NoneBeforeNext(s, "select", 5, 0);
    NoneBeforeNext(s, "select", 6, 0);
    NoneBeforeNext(s, "select", 7, 0);
    NoneBeforeNext(s, "select", 8, 0);
    NoneBeforeNext(s, "select", 9, 0);
    NoneAtAll(s, "select");
  }

  /** The primary tests are case-sensitive: "InsertSelective" gets no
      keyword line at all. */
  lemma CapitalisedInsertExample()
    ensures KeywordLines("InsertSelective") == []
  {
    CapitalisedInsertLacksInsert();
    CapitalisedInsertLacksDelete();
    CapitalisedInsertLacksUpdate();
    CapitalisedInsertLacksSelect();
  }

  lemma InsertWithSelectHasInsert()
    ensures Contains("insertWithSelect", "insert")
  {
    var s := "insertWithSelect";
    ContainsInfix("", "insert", "WithSelect");
    assert s == "" + "insert" + "WithSelect";
  }

  lemma InsertWithSelectLacksDelete()
    ensures !Contains("insertWithSelect", "delete")
  {
    var s := "insertWithSelect";
    AbsentCharNotContained(s, "delete", 0);
  }

  lemma InsertWithSelectLacksUpdate()
    ensures !Contains("insertWithSelect", "update")
  {
    var s := "insertWithSelect";
    AbsentCharNotContained(s, "update", 0);
  }

  lemma InsertWithSelectLacksSelect()
    ensures !Contains("insertWithSelect", "select")
  {
    var s := "insertWithSelect";
    NoneBeforeNext(s, "select", 0, 0);
    NoneBeforeNext(s, "select", 1, 0);
    NoneBeforeNext(s, "select", 2, 2);
    NoneBeforeNext(s, "select", 3, 0);
    NoneBeforeNext(s, "select", 4, 0);
    NoneBeforeNext(s, "select", 5, 0);
    NoneBeforeNext(s, "select", 6, 0);
    NoneBeforeNext(s, "select", 7, 0);
    NoneBeforeNext(s, "select", 8, 0);
    NoneBeforeNext(s, "select", 9, 0);
    NoneBeforeNext(s, "select", 10, 0);
    NoneAtAll(s, "select");
  }

  lemma InsertWithSelectMentionsSelect()
    ensures MentionsSelect("insertWithSelect")
  {
    LoweredContainsInfix("insertWith", "Select", "", "select");
    assert "insertWithSelect" == "insertWith" + "Select" + "";
  }

  /** "insertWithSelect" is a tagged save. */
  lemma InsertWithSelectExample()
    ensures KeywordLines("insertWithSelect") == [SaveTagged]
  {
    InsertWithSelectHasInsert();
    InsertWithSelectLacksDelete();
    InsertWithSelectLacksUpdate();
    InsertWithSelectLacksSelect();
    InsertWithSelectMentionsSelect();
  }

  lemma UpdateSelectTagLacksInsert()
    ensures !Contains("updateSelectTag", "insert")
  {
    var s := "updateSelectTag";
    AbsentCharNotContained(s, "insert", 0);
  }

  lemma UpdateSelectTagLacksDelete()
    ensures !Contains("updateSelectTag", "delete")
  {
    var s := "updateSelectTag";
    NoneBeforeNext(s, "delete", 0, 0);
    NoneBeforeNext(s, "delete", 1, 0);
    NoneBeforeNext(s, "delete", 2, 1);
    NoneBeforeNext(s, "delete", 3, 0);
    NoneBeforeNext(s, "delete", 4, 0);
    NoneBeforeNext(s, "delete", 5, 0);
    NoneBeforeNext(s, "delete", 6, 0);
    NoneBeforeNext(s, "delete", 7, 0);
    NoneBeforeNext(s, "delete", 8, 0);
    NoneBeforeNext(s, "delete", 9, 0);
    NoneAtAll(s, "delete");
  }

  lemma UpdateSelectTagHasUpdate()
    ensures Contains("updateSelectTag", "update")
  {
    var s := "updateSelectTag";
    ContainsInfix("", "update", "SelectTag");
    assert s == "" + "update" + "SelectTag";
  }

  lemma UpdateSelectTagLacksSelect()
    ensures !Contains("updateSelectTag", "select")
  {
    var s := "updateSelectTag";
    AbsentCharNotContained(s, "select", 0);
  }

  lemma UpdateSelectTagMentionsSelect()
    ensures MentionsSelect("updateSelectTag")
  {
    LoweredContainsInfix("update", "Select", "Tag", "select");
    assert "updateSelectTag" == "update" + "Select" + "Tag";
  }

  /** "updateSelectTag" is a tagged update: a case-sensitive "update" with a
      case-insensitive "select". */
  lemma UpdateSelectTagExample()
    ensures KeywordLines("updateSelectTag") == [UpdateTagged]
  {
    UpdateSelectTagLacksInsert();
    UpdateSelectTagLacksDelete();
    UpdateSelectTagHasUpdate();
    UpdateSelectTagLacksSelect();
    UpdateSelectTagMentionsSelect();
  }

  lemma SelectByDeleteLacksInsert()
    ensures !Contains("selectByDelete", "insert")
  {
    var s := "selectByDelete";
    AbsentCharNotContained(s, "insert", 0);
  }

  lemma SelectByDeleteLacksDelete()
    ensures !Contains("selectByDelete", "delete")
  {
    var s := "selectByDelete";
    AbsentCharNotContained(s, "delete", 0);
  }

  lemma SelectByDeleteLacksUpdate()
    ensures !Contains("selectByDelete", "update")
  {
    var s := "selectByDelete";
    AbsentCharNotContained(s, "update", 0);
  }

  lemma SelectByDeleteHasSelect()
    ensures Contains("selectByDelete", "select")
  {
    var s := "selectByDelete";
    ContainsInfix("", "select", "ByDelete");
    assert s == "" + "select" + "ByDelete";
  }

  /** In "selectByDelete" the "Delete" is capitalised, so only the query
      line appears. */
  lemma SelectByDeleteExample()
    ensures KeywordLines("selectByDelete") == [QueryByKey]
  {
    SelectByDeleteLacksInsert();
    SelectByDeleteLacksDelete();
    SelectByDeleteLacksUpdate();
    SelectByDeleteHasSelect();
  }

  lemma SelectAndDeleteLacksInsert()
    ensures !Contains("selectAnddelete", "insert")
  {
    var s := "selectAnddelete";
    AbsentCharNotContained(s, "insert", 0);
  }

  lemma SelectAndDeleteHasDelete()
    ensures Contains("selectAnddelete", "delete")
  {
    var s := "selectAnddelete";
    ContainsInfix("selectAnd", "delete", "");
    assert s == "selectAnd" + "delete" + "";
  }

  lemma SelectAndDeleteLacksUpdate()
    ensures !Contains("selectAnddelete", "update")
  {
    var s := "selectAnddelete";
    AbsentCharNotContained(s, "update", 0);
  }

  lemma SelectAndDeleteHasSelect()
    ensures Contains("selectAnddelete", "select")
  {
    var s := "selectAnddelete";
    ContainsInfix("", "select", "Anddelete");
    assert s == "" + "select" + "Anddelete";
  }

  /** A name holding both lower-case keywords gets both lines, delete first. */
  lemma SelectAndDeleteExample()
    ensures KeywordLines("selectAnddelete") == [DeleteByKey, QueryByKey]
  {
    SelectAndDeleteLacksInsert();
    SelectAndDeleteHasDelete();
    SelectAndDeleteLacksUpdate();
    SelectAndDeleteHasSelect();
  }

  lemma DeleteByPrimaryKeyLacksInsert()
    ensures !Contains("deleteByPrimaryKey", "insert")
  {
    var s := "deleteByPrimaryKey";
    AbsentCharNotContained(s, "insert", 1);
  }

  lemma DeleteByPrimaryKeyHasDelete()
    ensures Contains("deleteByPrimaryKey", "delete")
  {
    var s := "deleteByPrimaryKey";
    ContainsInfix("", "delete", "ByPrimaryKey");
    assert s == "" + "delete" + "ByPrimaryKey";
  }

  lemma DeleteByPrimaryKeyLacksUpdate()
    ensures !Contains("deleteByPrimaryKey", "update")
  {
    var s := "deleteByPrimaryKey";
    AbsentCharNotContained(s, "update", 0);
  }

  lemma DeleteByPrimaryKeyLacksSelect()
    ensures !Contains("deleteByPrimaryKey", "select")
  {
    var s := "deleteByPrimaryKey";
    AbsentCharNotContained(s, "select", 0);
  }

  /** "deleteByPrimaryKey" gets only the delete line. */
  lemma DeleteByPrimaryKeyExample()
    ensures KeywordLines("deleteByPrimaryKey") == [DeleteByKey]
  {
    DeleteByPrimaryKeyLacksInsert();
    DeleteByPrimaryKeyHasDelete();
    DeleteByPrimaryKeyLacksUpdate();
    DeleteByPrimaryKeyLacksSelect();
  }

  lemma UpdateByPrimaryKeyLacksInsert()
    ensures !Contains("updateByPrimaryKey", "insert")
  {
    var s := "updateByPrimaryKey";
    AbsentCharNotContained(s, "insert", 1);
  }

  lemma UpdateByPrimaryKeyLacksDelete()
    ensures !Contains("updateByPrimaryKey", "delete")
  {
    var s := "updateByPrimaryKey";
    AbsentCharNotContained(s, "delete", 2);
  }

  lemma UpdateByPrimaryKeyHasUpdate()
    ensures Contains("updateByPrimaryKey", "update")
  {
    var s := "updateByPrimaryKey";
    ContainsInfix("", "update", "ByPrimaryKey");
    assert s == "" + "update" + "ByPrimaryKey";
  }

  lemma UpdateByPrimaryKeyLacksSelect()
    ensures !Contains("updateByPrimaryKey", "select")
  {
    var s := "updateByPrimaryKey";
    AbsentCharNotContained(s, "select", 0);
  }

  lemma UpdateByPrimaryKeyOmitsSelect()
    ensures !MentionsSelect("updateByPrimaryKey")
  {
    AbsentLetterNotContainedLowered("updateByPrimaryKey", "select", 0);
  }

  /** "updateByPrimaryKey" is an untagged update. */
  lemma UpdateByPrimaryKeyExample()
    ensures KeywordLines("updateByPrimaryKey") == [UpdateUntagged]
  {
    UpdateByPrimaryKeyLacksInsert();
    UpdateByPrimaryKeyLacksDelete();
    UpdateByPrimaryKeyHasUpdate();
    UpdateByPrimaryKeyLacksSelect();
    UpdateByPrimaryKeyOmitsSelect();
  }

  lemma SelectByPrimaryKeyLacksInsert()
    ensures !Contains("selectByPrimaryKey", "insert")
  {
    var s := "selectByPrimaryKey";
    AbsentCharNotContained(s, "insert", 1);
  }

  lemma SelectByPrimaryKeyLacksDelete()
    ensures !Contains("selectByPrimaryKey", "delete")
  {
    var s := "selectByPrimaryKey";
    AbsentCharNotContained(s, "delete", 0);
  }

  lemma SelectByPrimaryKeyLacksUpdate()
    ensures !Contains("selectByPrimaryKey", "update")
  {
    var s := "selectByPrimaryKey";
    AbsentCharNotContained(s, "update", 0);
  }

  lemma SelectByPrimaryKeyHasSelect()
    ensures Contains("selectByPrimaryKey", "select")
  {
    var s := "selectByPrimaryKey";
    ContainsInfix("", "select", "ByPrimaryKey");
    assert s == "" + "select" + "ByPrimaryKey";
  }

  /** "selectByPrimaryKey" gets only the query line. */
  lemma SelectByPrimaryKeyExample()
    ensures KeywordLines("selectByPrimaryKey") == [QueryByKey]
  {
    SelectByPrimaryKeyLacksInsert();
    SelectByPrimaryKeyLacksDelete();
    SelectByPrimaryKeyLacksUpdate();
    SelectByPrimaryKeyHasSelect();
  }
}

=== FILE: comment_hooks.dfy ===
/**
  The hooks of `MyCommentGenerator`, each as the list of Javadoc lines it
  appends to its artifact. MyBatis's DOM objects are reduced to the strings
  the hooks read from them: the table's fully qualified name, a column's
  actual name and remarks, a method's name, parameters and return type.
 */
module CommentHooks {
  import opened JavaText
  import opened GeneratorConfig
  import opened MethodClassifier

  datatype Parameter = Parameter(name: string, typeName: string)

  /** A generated Java method: its name, its parameters in order and the
      short name of its return type. */
  datatype MethodInfo = MethodInfo(name: string, parameters: seq<Parameter>, returnShortName: string)

  /** An introspected column; its remarks may be null. */
  datatype Column = Column(actualColumnName: string, remarks: JString)

  /** What a hook that reads `getParameters().get(0)` leaves behind: all its
      lines, or, when the method has no parameters, the lines appended
      before the `IndexOutOfBoundsException` escaped. */
  datatype Outcome = Appended(lines: seq<string>) | OutOfBounds(lines: seq<string>)

  /** The shape of one Javadoc block: an opening line, body lines that each
      begin with " *" and stay on one physical line, and the closing line. */
  predicate IsDelimitedBlock(lines: seq<string>)
  {
    2 <= |lines|
    && (lines[0] == "/**" || lines[0] == "/***")
    && lines[|lines| - 1] == " */"
    && forall i | 1 <= i < |lines| - 1 :: StartsWith(lines[i], " *") && '\n' !in lines[i]
  }

  /** A delimited block that Java reads as one comment: no body line holds
      a star followed by a slash, which would end the comment early and
      leave the rest of the block in the code. */
  predicate IsJavadocBlock(lines: seq<string>)
  {
    IsDelimitedBlock(lines) && forall i | 1 <= i < |lines| - 1 :: NoCloser(lines[i])
  }

  /** Every line begins with " *" and stays on one physical line. */
  predicate AllBodyLines(body: seq<string>)
  {
    forall l | l in body :: StartsWith(l, " *") && '\n' !in l
  }

  lemma AllBodyLinesConcat(a: seq<string>, b: seq<string>)
    requires AllBodyLines(a) && AllBodyLines(b)
    ensures AllBodyLines(a + b)
  {
    forall l | l in a + b ensures StartsWith(l, " *") && '\n' !in l {
      assert l in a || l in b;
    }
  }

  /** No line holds a star followed by a slash. */
  predicate NoneCloses(body: seq<string>)
  {
    forall l | l in body :: NoCloser(l)
  }

  lemma NoneClosesConcat(a: seq<string>, b: seq<string>)
    ensures NoneCloses(a + b) <==> NoneCloses(a) && NoneCloses(b)
  {
    if NoneCloses(a) && NoneCloses(b) {
      forall l | l in a + b ensures NoCloser(l) {
        assert l in a || l in b;
      }
    }
    if NoneCloses(a + b) {
      forall l | l in a ensures NoCloser(l) { assert l in a + b; }
      forall l | l in b ensures NoCloser(l) { assert l in a + b; }
    }
  }

  /** An opening line, body lines and the closing line make one delimited
      block, which is one comment exactly when no body line closes it. */
  lemma {:induction false} BlockOfBodyLines(head: string, body: seq<string>)
    requires head == "/**" || head == "/***"
    requires AllBodyLines(body)
    ensures IsDelimitedBlock([head] + body + [" */"])
    ensures IsJavadocBlock([head] + body + [" */"]) <==> NoneCloses(body)
  {
    var lines := [head] + body + [" */"];
    forall i | 1 <= i < |lines| - 1 ensures lines[i] == body[i - 1] && lines[i] in body {
      assert lines[i] == body[i - 1];
      assert body[i - 1] in body;
    }
    forall l | l in body ensures exists i | 1 <= i < |lines| - 1 :: lines[i] == l {
      var k :| 0 <= k < |body| && body[k] == l;
      assert lines[k + 1] == l;
    }
  }

  /** A body line built in a `StringBuilder` from " * " and `text`, then
      passed through `replace("\n", " ")`: it keeps the " * " prefix, has
      one character per character built and no newline. */
  function BodyLine(text: string): (r: string)
    ensures StartsWith(r, " * ")
    ensures '\n' !in r
    ensures |r| == 3 + |text|
    ensures forall i | 0 <= i < |text| :: r[3 + i] == CollapseChar(text[i])
  {
    CollapseKeepsPrefix(" * ", text);
    CollapseNewlines(" * " + text)
  }

  /** A body line escapes nothing: it holds a closer exactly when its
      text does. */
  lemma BodyLineCloser(text: string)
    ensures NoCloser(BodyLine(text)) <==> NoCloser(text)
  {
    CollapseKeepsNoCloser(" * " + text);
    NoCloserWithoutSlash(" * ");
    NoCloserAfterSpace(" * ", text);
  }

  /** A body line is a line of a delimited block. */
  lemma BodyLineInBlock(text: string)
    ensures StartsWith(BodyLine(text), " *") && '\n' !in BodyLine(text)
  {
    var l := BodyLine(text);
    assert l[..2] == l[..3][..2];
  }

  /** A block of one body line is one comment exactly when the line holds
      no closer. */
  lemma SingleLineBlock(l: string)
    requires StartsWith(l, " *") && '\n' !in l
    ensures IsDelimitedBlock(["/**", l, " */"])
    ensures IsJavadocBlock(["/**", l, " */"]) <==> NoCloser(l)
  {
    var blk := ["/**", l, " */"];
    assert blk[1] == l;
  }

  /** A block of two body lines is one comment exactly when neither line
      holds a closer. */
  lemma TwoLineBlock(la: string, lb: string)
    requires StartsWith(la, " *") && '\n' !in la
    requires StartsWith(lb, " *") && '\n' !in lb
    ensures IsDelimitedBlock(["/**", la, lb, " */"])
    ensures IsJavadocBlock(["/**", la, lb, " */"]) <==> NoCloser(la) && NoCloser(lb)
  {
    var blk := ["/**", la, lb, " */"];
    assert blk[1] == la && blk[2] == lb;
    if NoCloser(la) && NoCloser(lb) {
      forall i | 1 <= i < |blk| - 1 ensures NoCloser(blk[i]) {
        assert i == 1 || i == 2;
      }
    }
  }

  /** A tag line ("@return", a name, a space, the remarks) holds a closer
      exactly when the name or the remarks do. */
  lemma TagLineCloser(tag: string, name: string, rm: string)
    requires |tag| > 0 && tag[|tag| - 1] == ' ' && '/' !in tag
    ensures NoCloser(tag + name + " " + rm) <==> NoCloser(name) && NoCloser(rm)
  {
    NoCloserWithoutSlash(tag);
    NoCloserAfterSpace(tag, name);
    NoCloserSpaced(tag + name, rm);
  }

  /** The remarks line and a tag line between the delimiters: a delimited
      block that is one comment exactly when neither the name nor the
      remarks hold a closer. */
  lemma TagBlock(tag: string, name: string, rm: string)
    requires |tag| > 0 && tag[|tag| - 1] == ' ' && '/' !in tag
    ensures IsDelimitedBlock(["/**", BodyLine(rm), BodyLine(tag + name + " " + rm), " */"])
    ensures IsJavadocBlock(["/**", BodyLine(rm), BodyLine(tag + name + " " + rm), " */"])
            <==> NoCloser(name) && NoCloser(rm)
  {
    TagLineCloser(tag, name, rm);
    BodyLineInBlock(rm);
    BodyLineInBlock(tag + name + " " + rm);
    BodyLineCloser(rm);
    BodyLineCloser(tag + name + " " + rm);
    TwoLineBlock(BodyLine(rm), BodyLine(tag + name + " " + rm));
  }

  /** `addClassComment(innerClass, table)`: the table and the date (the
      text "null" when dates are suppressed) on one line. */
  function ClassComment(c: Config, table: string): (r: seq<string>)
    ensures r == [] <==> c.suppressAllComments
    ensures r != [] ==> |r| == 3 && IsDelimitedBlock(r)
    ensures r != [] ==> (IsJavadocBlock(r) <==> NoCloser(table) && NoCloser(Render(GetDateString(c))))
  {
    if c.suppressAllComments then []
    else
      NoCloserSpaced(table, Render(GetDateString(c)));
      BodyLineInBlock(table + " " + Render(GetDateString(c)));
      BodyLineCloser(table + " " + Render(GetDateString(c)));
      SingleLineBlock(BodyLine(table + " " + Render(GetDateString(c))));
      ["/**", BodyLine(table + " " + Render(GetDateString(c))), " */"]
  }

  /** `addClassComment(innerClass, table, markAsDoNotDelete)`: the table
      after a doubled " * ". The `@author` line the method builds from the
      user name and the date is never appended, and `markAsDoNotDelete` is
      not read. */
  function ClassCommentMarked(c: Config, table: string, markAsDoNotDelete: bool): (r: seq<string>)
    ensures r == [] <==> c.suppressAllComments
    ensures r != [] ==> |r| == 3 && IsDelimitedBlock(r)
    ensures r != [] ==> (IsJavadocBlock(r) <==> NoCloser(table))
  {
    if c.suppressAllComments then []
    else
      NoCloserWithoutSlash(" * ");
      NoCloserAfterSpace(" * ", table);
      BodyLineInBlock(" * " + table);
      BodyLineCloser(" * " + table);
      SingleLineBlock(BodyLine(" * " + table));
      ["/**", BodyLine(" * " + table), " */"]
  }

  /** `addEnumComment`: the table name. */
  function EnumComment(c: Config, table: string): (r: seq<string>)
    ensures r == [] <==> c.suppressAllComments
    ensures r != [] ==> |r| == 3 && IsDelimitedBlock(r)
    ensures r != [] ==> (IsJavadocBlock(r) <==> NoCloser(table))
  {
    if c.suppressAllComments then []
    else
      BodyLineInBlock(table);
      BodyLineCloser(table);
      SingleLineBlock(BodyLine(table));
      ["/**", BodyLine(table), " */"]
  }

  /** `addFieldComment(field, table)`: the table name. */
  function FieldComment(c: Config, table: string): (r: seq<string>)
    ensures r == [] <==> c.suppressAllComments
    ensures r != [] ==> |r| == 3 && IsDelimitedBlock(r)
    ensures r != [] ==> (IsJavadocBlock(r) <==> NoCloser(table))
  {
    if c.suppressAllComments then []
    else
      BodyLineInBlock(table);
      BodyLineCloser(table);
      SingleLineBlock(BodyLine(table));
      ["/**", BodyLine(table), " */"]
  }

  /** `addFieldComment(field, table, column)`: the column's remarks. */
  function ColumnFieldComment(c: Config, col: Column): (r: seq<string>)
    ensures r == [] <==> c.suppressAllComments
    ensures r != [] ==> |r| == 3 && IsDelimitedBlock(r)
    ensures r != [] ==> (IsJavadocBlock(r) <==> NoCloser(Render(col.remarks)))
  {
    if c.suppressAllComments then []
    else
      BodyLineInBlock(Render(col.remarks));
      BodyLineCloser(Render(col.remarks));
      SingleLineBlock(BodyLine(Render(col.remarks)));
      ["/**", BodyLine(Render(col.remarks)), " */"]
  }

  /** `addGetterComment`: the remarks, then an `@return` line naming the
      column. */
  function GetterComment(c: Config, col: Column): (r: seq<string>)
    ensures r == [] <==> c.suppressAllComments
    ensures r != [] ==> |r| == 4 && IsDelimitedBlock(r)
    ensures r != [] ==>
              (IsJavadocBlock(r) <==> NoCloser(col.actualColumnName) && NoCloser(Render(col.remarks)))
  {
    if c.suppressAllComments then []
    else
      TagBlock("@return ", col.actualColumnName, Render(col.remarks));
      [ "/**",
        BodyLine(Render(col.remarks)),
        BodyLine("@return " + col.actualColumnName + " " + Render(col.remarks)),
        " */" ]
  }

  /** `addSetterComment`: the remarks, then an `@param` line naming the
      method's first parameter. A setter without parameters stops after
      the remarks line. */
  function SetterComment(c: Config, m: MethodInfo, col: Column): (e: Outcome)
    ensures e.lines == [] <==> c.suppressAllComments
    ensures e.OutOfBounds? <==> !c.suppressAllComments && |m.parameters| == 0
    ensures e.OutOfBounds? ==> |e.lines| == 2
    ensures e.Appended? && e.lines != [] ==> |e.lines| == 4 && IsDelimitedBlock(e.lines)
    ensures !c.suppressAllComments && |m.parameters| > 0 ==>
              (IsJavadocBlock(e.lines) <==> NoCloser(m.parameters[0].name) && NoCloser(Render(col.remarks)))
  {
    if c.suppressAllComments then Appended([])
    else
      if |m.parameters| == 0 then OutOfBounds(["/**", BodyLine(Render(col.remarks))])
      else
        TagBlock("@param ", m.parameters[0].name, Render(col.remarks));
        Appended([ "/**",
                   BodyLine(Render(col.remarks)),
                   BodyLine("@param " + m.parameters[0].name + " " + Render(col.remarks)),
                   " */" ])
  }

  /** `addGeneralMethodComment`: nothing for `toString`; otherwise the
      keyword lines of the name, a blank " * ", the first parameter, the
      return type. These lines are not passed through the newline
      replacement. A method without parameters stops after the blank line. */
  function GeneralMethodComment(c: Config, m: MethodInfo): (e: Outcome)
    ensures e.lines == [] <==> c.suppressAllComments || m.name == "toString"
    ensures e.OutOfBounds? <==> !c.suppressAllComments && m.name != "toString" && |m.parameters| == 0
    ensures e.OutOfBounds? ==> |e.lines| == |KeywordLines(m.name)| + 2
    ensures e.Appended? && e.lines != [] ==> |e.lines| == |KeywordLines(m.name)| + 5
  {
    if c.suppressAllComments || m.name == "toString" then Appended([])
    else
      var head := ["/**"] + KeywordLines(m.name) + [" * "];
      if |m.parameters| == 0 then OutOfBounds(head)
      else
        Appended(head + [
          " * @param " + m.parameters[0].name,
          " * @return " + m.returnShortName,
          " */" ])
  }

  /** The labels of the model-class header's description, author and
      creation-time fields, and its empty creation-note field. */
  const DescriptionLabel: string := " * 描    述: "
  const AuthorLabel: string := " * 创 建 者: @author "
  const CreatedLabel: string := " * 创建时间: "
  const CreationNoteLine: string := " * 创建描述: "

  /** The description and creation fields of the model-class header, each
      preceded or followed by a bare " *" as in the source. */
  function CreationLines(tableConfiguration: string, remarks: string, author: string, timestamp: string)
    : (r: seq<string>)
    ensures |r| == 7
  {
    [ " *",
      " *",
      DescriptionLabel + tableConfiguration + " " + remarks,
      " *",
      AuthorLabel + author,
      CreatedLabel + timestamp,
      CreationNoteLine ]
  }

  /** The change and review fields that end the model-class header, all
      left blank for a person to fill in. */
  const HeaderReviewLines: seq<string> := [
    " *",
    " * 修 改 者: ",
    " * 修改时间: ",
    " * 修改描述: ",
    " *",
    " * 审 核 者: ",
    " * 审核时间: ",
    " * 审核描述: ",
    " *" ]

  /** `addModelClassComment`: the eighteen-line header of a model class:
      the opening line, the description and creation fields, the blank
      change and review fields, the closing line. It never reads the
      suppression flags, takes the author from the merged property bag
      ("null" when absent) and writes its lines without the newline
      replacement. `tableConfiguration` is the text string concatenation
      writes for the table's configuration object, and `timestamp` the
      creation time the method formats as "yyyy/MM/dd HH:mm". */
  function ModelClassComment(c: Config, tableConfiguration: string, remarks: JString, timestamp: string)
    : (r: seq<string>)
    ensures |r| == 18
  {
    ["/***"]
    + (CreationLines(tableConfiguration, Render(remarks), Render(GetProperty(c.properties, AuthorKey)), timestamp)
       + HeaderReviewLines)
    + [" */"]
  }
}

=== FILE: comment_properties.dfy ===
/**
  Properties that hold across the hooks: what suppression silences, the
  shape of the general-method comment, which inputs each line shows
  verbatim, and what the model-class header reads from the configuration.
 */
module CommentProperties {
  import opened JavaText
  import opened GeneratorConfig
  import opened MethodClassifier
  import opened CommentHooks

  /** A body line of newline-free text is " * " followed by the text
      itself, so the text can be read back from the line. */
  lemma BodyLineVerbatim(text: string)
    requires '\n' !in text
    ensures BodyLine(text) == " * " + text
    ensures BodyLine(text)[3..] == text
  {
    var r := BodyLine(text);
    assert r[..3] == " * " by { assert StartsWith(r, " * "); }
    forall i | 0 <= i < |text| ensures r[3 + i] == text[i] {
      assert text[i] in text;
    }
    assert r[3..] == text;
    assert r == r[..3] + r[3..];
  }

  /** With all comments suppressed every hook appends nothing, except the
      model-class header, which is the same as with no flag set. */
  lemma SuppressionSilencesHooks(
    c: Config, table: string, mark: bool, col: Column, m: MethodInfo,
    tableConfiguration: string, remarks: JString, timestamp: string)
    requires c.suppressAllComments
    ensures ClassComment(c, table) == []
    ensures ClassCommentMarked(c, table, mark) == []
    ensures EnumComment(c, table) == []
    ensures FieldComment(c, table) == []
    ensures ColumnFieldComment(c, col) == []
    ensures GetterComment(c, col) == []
    ensures SetterComment(c, m, col) == Appended([])
    ensures GeneralMethodComment(c, m) == Appended([])
    ensures ModelClassComment(c, tableConfiguration, remarks, timestamp)
            == ModelClassComment(c.(suppressAllComments := false, suppressDate := false),
                                 tableConfiguration, remarks, timestamp)
  {
  }

  /** A method named exactly "toString" gets no comment, whatever the
      flags. */
  lemma ToStringGetsNoComment(c: Config, m: MethodInfo)
    requires m.name == "toString"
    ensures GeneralMethodComment(c, m) == Appended([])
  {
  }

  /** The general-method comment of a method with parameters: the opening line, at
      most four keyword lines in the order insert, delete, update, select,
      the blank " * ", the first parameter, the return type, the closing
      line. */
  lemma GeneralMethodShape(c: Config, m: MethodInfo)
    requires !c.suppressAllComments && m.name != "toString" && |m.parameters| > 0
    ensures GeneralMethodComment(c, m).Appended?
    ensures var lines := GeneralMethodComment(c, m).lines;
            var k := |lines| - 5;
            0 <= k <= 4
            && lines[0] == "/**"
            && lines[1..k + 1] == KeywordLines(m.name)
            && (forall i, j :: 1 <= i < j <= k ==> Rank(lines[i]) < Rank(lines[j]))
            && lines[k + 1] == " * "
            && lines[k + 2] == " * @param " + m.parameters[0].name
            && lines[k + 3] == " * @return " + m.returnShortName
            && lines[k + 4] == " */"
  {
    var lines := GeneralMethodComment(c, m).lines;
    var kw := KeywordLines(m.name);
    KeywordLinesOrdered(m.name);
    assert lines[1..|kw| + 1] == kw;
    forall i, j | 1 <= i < j <= |kw| ensures Rank(lines[i]) < Rank(lines[j]) {
      assert lines[i] == kw[i - 1] && lines[j] == kw[j - 1];
    }
  }

  /** A method without parameters gets the opening line, its keyword lines
      and the blank line before `get(0)` fails. */
  lemma GeneralMethodWithoutParameters(c: Config, m: MethodInfo)
    requires !c.suppressAllComments && m.name != "toString" && |m.parameters| == 0
    ensures GeneralMethodComment(c, m) == OutOfBounds(["/**"] + KeywordLines(m.name) + [" * "])
  {
  }

  /** Every keyword line is a Javadoc body line on one physical line, and
      none of them can end the comment. */
  lemma KeywordLinesAreBodyLines(name: string)
    ensures AllBodyLines(KeywordLines(name))
    ensures NoneCloses(KeywordLines(name))
  {
    KeywordConstantsAreBodyLines();
    KeywordConstantsHoldNoCloser();
    KeywordLineMembership(name);
  }

  /** The six keyword lines begin with " *" and hold no newline. */
  lemma KeywordConstantsAreBodyLines()
    ensures forall l | l in [SaveTagged, SaveUntagged, DeleteByKey, UpdateTagged, UpdateUntagged, QueryByKey] ::
              StartsWith(l, " *") && '\n' !in l
  {
  }

  /** The six keyword lines hold no slash, so none can end a comment. */
  lemma KeywordConstantsHoldNoCloser()
    ensures forall l | l in [SaveTagged, SaveUntagged, DeleteByKey, UpdateTagged, UpdateUntagged, QueryByKey] ::
              NoCloser(l)
  {
    forall l | l in [SaveTagged, SaveUntagged, DeleteByKey, UpdateTagged, UpdateUntagged, QueryByKey]
      ensures NoCloser(l)
    {
      NoCloserWithoutSlash(l);
    }
  }

  /** The general-method comment is a delimited block as long as the
      parameter name and the return type hold no newline; those two lines
      are not passed through the newline replacement. It is one comment
      exactly when neither of them holds a closer. */
  lemma GeneralMethodIsJavadocBlock(c: Config, m: MethodInfo)
    requires !c.suppressAllComments && m.name != "toString" && |m.parameters| > 0
    requires '\n' !in m.parameters[0].name && '\n' !in m.returnShortName
    ensures IsDelimitedBlock(GeneralMethodComment(c, m).lines)
    ensures IsJavadocBlock(GeneralMethodComment(c, m).lines)
            <==> NoCloser(m.parameters[0].name) && NoCloser(m.returnShortName)
  {
    var kw := KeywordLines(m.name);
    var trailer := [" * ", " * @param " + m.parameters[0].name, " * @return " + m.returnShortName];
    var body := kw + trailer;
    assert AllBodyLines(body) by {
      KeywordLinesAreBodyLines(m.name);
      TrailerLinesAreBodyLines(m.parameters[0].name, m.returnShortName);
      AllBodyLinesConcat(kw, trailer);
    }
    assert NoneCloses(body) <==> NoCloser(m.parameters[0].name) && NoCloser(m.returnShortName) by {
      KeywordLinesAreBodyLines(m.name);
      TrailerLinesCloser(m.parameters[0].name, m.returnShortName);
      NoneClosesConcat(kw, trailer);
    }
    BlockOfBodyLines("/**", body);
    assert GeneralMethodComment(c, m).lines == ["/**"] + body + [" */"];
  }

  /** The blank, `@param` and `@return` lines of a general-method comment
      are body lines when the two names hold no newline. */
  lemma TrailerLinesAreBodyLines(param: string, ret: string)
    requires '\n' !in param && '\n' !in ret
    ensures AllBodyLines([" * ", " * @param " + param, " * @return " + ret])
  {
    StartsWithConcat(" * @param ", param, " *");
    StartsWithConcat(" * @return ", ret, " *");
  }

  /** The trailer lines hold a closer exactly when the parameter name or
      the return type does: nothing is escaped. */
  lemma TrailerLinesCloser(param: string, ret: string)
    ensures NoneCloses([" * ", " * @param " + param, " * @return " + ret]) <==> NoCloser(param) && NoCloser(ret)
  {
    NoCloserWithoutSlash(" * ");
    NoCloserWithoutSlash(" * @param ");
    NoCloserWithoutSlash(" * @return ");
    NoCloserAfterSpace(" * @param ", param);
    NoCloserAfterSpace(" * @return ", ret);
  }

  /** A longer string keeps the prefixes of its first part. */
  lemma StartsWithConcat(a: string, b: string, p: string)
    requires StartsWith(a, p)
    ensures StartsWith(a + b, p)
  {
    assert (a + b)[..|p|] == a[..|p|];
  }

  /** The two-argument class comment: the table, then the date, or the
      text "null" when dates are suppressed. */
  lemma ClassCommentDateLine(c: Config, table: string)
    requires !c.suppressAllComments && '\n' !in table && '\n' !in c.currentDateStr
    ensures ClassComment(c, table)[1]
            == " * " + table + " " + (if c.suppressDate then "null" else c.currentDateStr)
  {
    var date := if c.suppressDate then "null" else c.currentDateStr;
    assert Render(GetDateString(c)) == date;
    assert '\n' !in table + " " + date;
    BodyLineVerbatim(table + " " + date);
  }

  /** The output of the three-argument class comment depends on neither
      the date, nor `suppressDate`, nor the properties, nor
      `markAsDoNotDelete`: the author line built from the date is never
      appended. */
  lemma ClassCommentMarkedIgnoresDate(c: Config, d: Config, table: string, mark1: bool, mark2: bool)
    requires c.suppressAllComments == d.suppressAllComments
    ensures ClassCommentMarked(c, table, mark1) == ClassCommentMarked(d, table, mark2)
  {
  }

  /** The three-argument class comment shows the table after a doubled
      " * ". */
  lemma ClassCommentMarkedShowsTable(c: Config, table: string, mark: bool)
    ensures !c.suppressAllComments && '\n' !in table ==>
              ClassCommentMarked(c, table, mark) == ["/**", " *  * " + table, " */"]
  {
    if !c.suppressAllComments && '\n' !in table {
      assert '\n' !in " * " + table;
      BodyLineVerbatim(" * " + table);
      assert " * " + (" * " + table) == " *  * " + table;
    }
  }

  /** The enum comment and the table-level field comment are the same
      block, holding the table name. */
  lemma EnumAndFieldCommentsAgree(c: Config, table: string)
    ensures EnumComment(c, table) == FieldComment(c, table)
    ensures !c.suppressAllComments && '\n' !in table ==>
              FieldComment(c, table) == ["/**", " * " + table, " */"]
  {
    if !c.suppressAllComments && '\n' !in table {
      BodyLineVerbatim(table);
    }
  }

  /** A tag line such as "@return name remarks" with no newline in any of
      its parts is written verbatim after " * ". */
  lemma LabelledLineVerbatim(tag: string, name: string, rm: string)
    requires '\n' !in tag && '\n' !in name && '\n' !in rm
    ensures BodyLine(tag + name + " " + rm) == " * " + tag + name + " " + rm
  {
    var t := tag + name + " " + rm;
    assert '\n' !in t;
    BodyLineVerbatim(t);
    assert " * " + t == " * " + tag + name + " " + rm;
  }

  /** The getter comment shows newline-free remarks and column name
      verbatim; a null remark reads "null". */
  lemma GetterVerbatim(c: Config, col: Column)
    requires !c.suppressAllComments
    requires '\n' !in col.actualColumnName && '\n' !in Render(col.remarks)
    ensures GetterComment(c, col)
            == ["/**",
                " * " + Render(col.remarks),
                " * @return " + col.actualColumnName + " " + Render(col.remarks),
                " */"]
  {
    var rm := Render(col.remarks);
    BodyLineVerbatim(rm);
    LabelledLineVerbatim("@return ", col.actualColumnName, rm);
    assert " * " + "@return " == " * @return ";
  }

  /** The setter comment reads only the first parameter's name from the
      method, and shows it verbatim with the remarks in the `@param` line. */
  lemma SetterNamesFirstParameter(c: Config, m: MethodInfo, n: MethodInfo, col: Column)
    requires !c.suppressAllComments && |m.parameters| > 0 && |n.parameters| > 0
    requires m.parameters[0].name == n.parameters[0].name
    ensures SetterComment(c, m, col) == SetterComment(c, n, col)
    ensures '\n' !in m.parameters[0].name && '\n' !in Render(col.remarks) ==>
              SetterComment(c, m, col).lines
              == ["/**",
                  " * " + Render(col.remarks),
                  " * @param " + m.parameters[0].name + " " + Render(col.remarks),
                  " */"]
  {
    var rm := Render(col.remarks);
    if '\n' !in m.parameters[0].name && '\n' !in rm {
      BodyLineVerbatim(rm);
      LabelledLineVerbatim("@param ", m.parameters[0].name, rm);
      assert " * " + "@param " == " * @param ";
    }
  }

  /** The column field comment holds the remarks, "null" when there are
      none. */
  lemma ColumnFieldRemarks(c: Config, col: Column)
    requires !c.suppressAllComments && '\n' !in Render(col.remarks)
    ensures ColumnFieldComment(c, col) == ["/**", " * " + Render(col.remarks), " */"]
    ensures col.remarks.Null? ==> ColumnFieldComment(c, col)[1] == " * null"
  {
    BodyLineVerbatim(Render(col.remarks));
  }

  /** The model-class header depends on the configuration only through
      its property bag. */
  lemma ModelClassIgnoresFlags(
    c: Config, d: Config, tableConfiguration: string, remarks: JString, timestamp: string)
    requires c.properties == d.properties
    ensures ModelClassComment(c, tableConfiguration, remarks, timestamp)
            == ModelClassComment(d, tableConfiguration, remarks, timestamp)
  {
  }

  /** The author line shows the "author" property of the merged bag: the
      value of the last call that set it, which a later call without it
      does not clear (unlike the flags), and "null" when none did. */
  lemma ModelClassAuthor(
    c: Config, m1: map<string, string>, m2: map<string, string>,
    tableConfiguration: string, remarks: JString, timestamp: string)
    requires AuthorKey in m1 && AuthorKey !in m2
    ensures ModelClassComment(AddConfigurationProperties(AddConfigurationProperties(c, m1), m2),
                              tableConfiguration, remarks, timestamp)[5]
            == " * 创 建 者: @author " + m1[AuthorKey]
    ensures AuthorKey !in c.properties ==>
              ModelClassComment(c, tableConfiguration, remarks, timestamp)[5] == " * 创 建 者: @author null"
  {
  }

  /** The blank change and review fields are body lines. */
  lemma HeaderReviewLinesAreBodyLines()
    ensures AllBodyLines(HeaderReviewLines)
  {
  }

  /** The blank change and review fields hold no slash, so none can end
      the comment. */
  lemma HeaderReviewLinesAreOpen()
    ensures NoneCloses(HeaderReviewLines)
  {
    forall l | l in HeaderReviewLines ensures NoCloser(l) {
      assert '/' !in l;
      NoCloserWithoutSlash(l);
    }
  }

  /** A field label: it begins a body line, holds no newline and no
      slash, and ends in a space. */
  predicate OpenLabel(field: string)
  {
    StartsWith(field, " *") && '\n' !in field && '/' !in field && |field| > 0 && field[|field| - 1] == ' '
  }

  lemma DescriptionLabelIsOpen()
    ensures OpenLabel(DescriptionLabel)
  {
  }

  lemma AuthorLabelIsOpen()
    ensures OpenLabel(AuthorLabel)
  {
  }

  lemma CreatedLabelIsOpen()
    ensures OpenLabel(CreatedLabel)
  {
  }

  lemma CreationNoteIsOpen()
    ensures OpenLabel(CreationNoteLine)
  {
  }

  /** With newline-free texts the description and creation fields are body
      lines. */
  lemma CreationLinesAreBodyLines(tableConfiguration: string, remarks: string, author: string, timestamp: string)
    requires '\n' !in tableConfiguration && '\n' !in remarks && '\n' !in author && '\n' !in timestamp
    ensures AllBodyLines(CreationLines(tableConfiguration, remarks, author, timestamp))
  {
    var lines := CreationLines(tableConfiguration, remarks, author, timestamp);
    DescriptionLabelIsOpen();
    AuthorLabelIsOpen();
    CreatedLabelIsOpen();
    CreationNoteIsOpen();
    StartsWithConcat(DescriptionLabel + tableConfiguration + " ", remarks, " *");
    StartsWithConcat(DescriptionLabel + tableConfiguration, " ", " *");
    StartsWithConcat(DescriptionLabel, tableConfiguration, " *");
    StartsWithConcat(AuthorLabel, author, " *");
    StartsWithConcat(CreatedLabel, timestamp, " *");
    forall k | 0 <= k < 7 ensures StartsWith(lines[k], " *") && '\n' !in lines[k] {
    }
  }

  /** The description and creation fields hold a closer exactly when one
      of the four interpolated texts does. */
  lemma CreationLinesCloser(tableConfiguration: string, remarks: string, author: string, timestamp: string)
    ensures NoneCloses(CreationLines(tableConfiguration, remarks, author, timestamp))
            <==> NoCloser(tableConfiguration) && NoCloser(remarks) && NoCloser(author) && NoCloser(timestamp)
  {
    var lines := CreationLines(tableConfiguration, remarks, author, timestamp);
    DescriptionLabelIsOpen();
    AuthorLabelIsOpen();
    CreatedLabelIsOpen();
    CreationNoteIsOpen();
    NoCloserSpaced(DescriptionLabel + tableConfiguration, remarks);
    FieldLineCloser(DescriptionLabel, tableConfiguration);
    FieldLineCloser(AuthorLabel, author);
    FieldLineCloser(CreatedLabel, timestamp);
    NoCloserWithoutSlash(" *");
    NoCloserWithoutSlash(CreationNoteLine);
    if NoCloser(lines[2]) && NoCloser(lines[4]) && NoCloser(lines[5]) {
      forall k | 0 <= k < 7 ensures NoCloser(lines[k]) {
      }
    }
    assert lines[2] in lines && lines[4] in lines && lines[5] in lines;
  }

  /** A field line: a fixed label ending in a space and without a slash,
      then the field's text. It holds a closer exactly when the text does. */
  lemma FieldLineCloser(field: string, text: string)
    requires |field| > 0 && field[|field| - 1] == ' ' && '/' !in field
    ensures NoCloser(field + text) <==> NoCloser(text)
  {
    NoCloserWithoutSlash(field);
    NoCloserAfterSpace(field, text);
  }

  /** With newline-free inputs the model-class header is a delimited
      block. It is one comment exactly when none of the description, the
      remarks, the author and the timestamp holds a closer: the header
      escapes nothing. */
  lemma ModelClassIsJavadocBlock(c: Config, tableConfiguration: string, remarks: JString, timestamp: string)
    requires '\n' !in tableConfiguration && '\n' !in Render(remarks) && '\n' !in timestamp
    requires '\n' !in Render(GetProperty(c.properties, AuthorKey))
    ensures IsDelimitedBlock(ModelClassComment(c, tableConfiguration, remarks, timestamp))
    ensures IsJavadocBlock(ModelClassComment(c, tableConfiguration, remarks, timestamp))
            <==> NoCloser(tableConfiguration) && NoCloser(Render(remarks))
                 && NoCloser(Render(GetProperty(c.properties, AuthorKey))) && NoCloser(timestamp)
  {
    var author := Render(GetProperty(c.properties, AuthorKey));
    var creation := CreationLines(tableConfiguration, Render(remarks), author, timestamp);
    CreationLinesAreBodyLines(tableConfiguration, Render(remarks), author, timestamp);
    CreationLinesCloser(tableConfiguration, Render(remarks), author, timestamp);
    HeaderReviewLinesAreBodyLines();
    HeaderReviewLinesAreOpen();
    AllBodyLinesConcat(creation, HeaderReviewLines);
    NoneClosesConcat(creation, HeaderReviewLines);
    BlockOfBodyLines("/***", creation + HeaderReviewLines);
  }
}

=== FILE: generator_config.dfy ===
/**
  The state a `MyCommentGenerator` carries between hook calls: its merged
  property bag, the two suppression flags and the date string frozen when
  the generator was constructed. `addConfigurationProperties` is the only
  operation that changes it.
 */
module GeneratorConfig {
  import opened JavaText

  /** MyBatis's `PropertyRegistry.COMMENT_GENERATOR_SUPPRESS_DATE`. */
  const SuppressDateKey: string := "suppressDate"
  /** MyBatis's `PropertyRegistry.COMMENT_GENERATOR_SUPPRESS_ALL_COMMENTS`. */
  const SuppressAllCommentsKey: string := "suppressAllComments"
  /** The property the model-class comment reads its author from. */
  const AuthorKey: string := "author"

  datatype Config = Config(
    properties: map<string, string>,
    suppressDate: bool,
    suppressAllComments: bool,
    currentDateStr: string)

  /** `Properties.getProperty`: the value under `key`, or null when absent. */
  function GetProperty(props: map<string, string>, key: string): (v: JString)
    ensures v.Str? <==> key in props
    ensures v.Str? ==> v.value == props[key]
  {
    if key in props then Str(props[key]) else Null
  }

  /** The constructor: an empty property bag, both flags off, and the date
      of construction (formatted "yyyy-MM-dd" by the caller) frozen. */
  function NewGenerator(currentDateStr: string): (c: Config)
    ensures c.properties == map[]
    ensures !c.suppressDate && !c.suppressAllComments
    ensures c.currentDateStr == currentDateStr
    ensures GetDateString(c) == Str(currentDateStr)
  {
    Config(map[], false, false, currentDateStr)
  }

  /** `addConfigurationProperties`: merges `incoming` into the bag (a later
      value for a key replaces the earlier one) and recomputes both flags
      from `incoming` alone, never from the merged bag. */
  function AddConfigurationProperties(c: Config, incoming: map<string, string>): (c': Config)
    ensures c'.properties.Keys == c.properties.Keys + incoming.Keys
    ensures forall k :: k in incoming ==> c'.properties[k] == incoming[k]
    ensures forall k :: k in c.properties && k !in incoming ==> c'.properties[k] == c.properties[k]
    ensures c'.suppressDate <==> SuppressDateKey in incoming && IsTrue(Str(incoming[SuppressDateKey]))
    ensures c'.suppressAllComments <==>
              SuppressAllCommentsKey in incoming && IsTrue(Str(incoming[SuppressAllCommentsKey]))
    ensures c'.currentDateStr == c.currentDateStr
  {
    Config(
      c.properties + incoming,
      IsTrue(GetProperty(incoming, SuppressDateKey)),
      IsTrue(GetProperty(incoming, SuppressAllCommentsKey)),
      c.currentDateStr)
  }

  /** `getDateString`: the frozen date exactly when dates are not
      suppressed, and null otherwise. */
  function GetDateString(c: Config): (d: JString)
    ensures d.Str? <==> !c.suppressDate
    ensures d.Str? ==> d.value == c.currentDateStr
  {
    if !c.suppressDate then Str(c.currentDateStr) else Null
  }

  /** The generator after `addConfigurationProperties` has been called with
      each property map of `calls` in turn. */
  function ConfigureAll(c: Config, calls: seq<map<string, string>>): (c': Config)
    ensures c'.currentDateStr == c.currentDateStr
    ensures |calls| > 0 ==>
              (c'.suppressDate <==>
                 SuppressDateKey in calls[|calls| - 1]
                 && IsTrue(Str(calls[|calls| - 1][SuppressDateKey])))
    ensures |calls| > 0 ==>
              (c'.suppressAllComments <==>
                 SuppressAllCommentsKey in calls[|calls| - 1]
                 && IsTrue(Str(calls[|calls| - 1][SuppressAllCommentsKey])))
    decreases |calls|
  {
    if |calls| == 0 then c
    else ConfigureAll(AddConfigurationProperties(c, calls[0]), calls[1..])
  }

  /** However often the generator is configured, the date it prints is the
      one frozen at construction, or null when the last configuration
      suppressed dates. */
  lemma DateFrozenAtConstruction(d: string, calls: seq<map<string, string>>)
    ensures GetDateString(ConfigureAll(NewGenerator(d), calls)) == Str(d)
            || GetDateString(ConfigureAll(NewGenerator(d), calls)) == Null
    ensures GetDateString(ConfigureAll(NewGenerator(d), calls)) == Null <==>
              |calls| > 0 && SuppressDateKey in calls[|calls| - 1]
              && IsTrue(Str(calls[|calls| - 1][SuppressDateKey]))
  {
  }

  /** Configuring twice with the same properties leaves the same state as
      configuring once. */
  lemma ConfigureIdempotent(c: Config, m: map<string, string>)
    ensures AddConfigurationProperties(AddConfigurationProperties(c, m), m)
            == AddConfigurationProperties(c, m)
  {
    var once := AddConfigurationProperties(c, m);
    var twice := AddConfigurationProperties(once, m);
    assert twice.properties == once.properties;
  }

  /** The flags after a call depend only on that call's properties: whatever
      an earlier call set is forgotten. */
  lemma FlagsReadFromIncomingOnly(c1: Config, c2: Config, m: map<string, string>)
    ensures AddConfigurationProperties(c1, m).suppressDate == AddConfigurationProperties(c2, m).suppressDate
    ensures AddConfigurationProperties(c1, m).suppressAllComments
            == AddConfigurationProperties(c2, m).suppressAllComments
  {
  }

  /** A later call without a flag's key resets that flag to false, even
      though the merged bag still holds the earlier "true". */
  lemma LaterCallResetsFlag(c: Config, m1: map<string, string>, m2: map<string, string>)
    requires SuppressAllCommentsKey in m1 && m1[SuppressAllCommentsKey] == "true"
    requires SuppressAllCommentsKey !in m2
    ensures AddConfigurationProperties(c, m1).suppressAllComments
    ensures !AddConfigurationProperties(AddConfigurationProperties(c, m1), m2).suppressAllComments
    ensures AddConfigurationProperties(AddConfigurationProperties(c, m1), m2)
              .properties[SuppressAllCommentsKey] == "true"
  {
    assert ToLowerCase("true") == "true";
  }
}

=== FILE: java_text.dfy ===
/**
  The few pieces of Java `String` behaviour that the comment generator
  relies on: how a null reference is written by `StringBuilder.append` and
  by `+`, `String.contains`, an ASCII `toLowerCase`, `replace("\n", " ")`
  and MyBatis's `StringUtility.isTrue`.
 */
module JavaText {

  /** A Java `String` reference, which may be null. */
  datatype JString = Null | Str(value: string)

  /** The text `StringBuilder.append(Object)` and string `+` write for a
      reference: the four characters "null" when it is null. */
  function Render(j: JString): (r: string)
    ensures j.Str? ==> r == j.value
    ensures j.Null? ==> r == "null"
  {
    match j
    case Null => "null"
    case Str(s) => s
  }

  /** Once written, a null reference cannot be told apart from the
      four-character string "null". */
  lemma RenderNullAmbiguous(j: JString)
    ensures Render(j) == "null" <==> j.Null? || j.value == "null"
  {
  }

  /** `pat` sits in `s` starting at index `i`. */
  predicate OccursAt(s: string, pat: string, i: int)
  {
    0 <= i <= |s| - |pat| && s[i..i + |pat|] == pat
  }

  /** `s.contains(pat)`: some occurrence of `pat` lies inside `s`, so the
      empty pattern is contained in every string. */
  predicate Contains(s: string, pat: string)
  {
    exists i | 0 <= i <= |s| - |pat| :: OccursAt(s, pat, i)
  }

  /** `Character.toLowerCase` restricted to ASCII: 'A'..'Z' map to 'a'..'z'. */
  function LowerChar(c: char): (r: char)
    ensures 'A' <= c <= 'Z' ==> 'a' <= r <= 'z' && UpperChar(r) == c
    ensures !('A' <= c <= 'Z') ==> r == c
  {
    if 'A' <= c <= 'Z' then (c as int + 32) as char else c
  }

  /** `String.toLowerCase()` on ASCII: same length, each letter lowered,
      every other character kept. */
  function ToLowerCase(s: string): (r: string)
    ensures |r| == |s|
    ensures forall i :: 0 <= i < |s| ==> r[i] == LowerChar(s[i])
  {
    seq(|s|, i requires 0 <= i < |s| => LowerChar(s[i]))
  }

  /** `s.indexOf(pat, from)` for `from` within `s` (Java also accepts a
      larger `from`, which the model never passes): the first index at or
      after `from` where `pat` occurs, or -1 when there is none. */
  function IndexFrom(s: string, pat: string, from: nat): (r: int)
    requires from <= |s|
    ensures r == -1 || (from <= r && OccursAt(s, pat, r))
    ensures r != -1 ==> forall i | from <= i < r :: !OccursAt(s, pat, i)
    ensures r == -1 ==> forall i | from <= i :: !OccursAt(s, pat, i)
    decreases |s| - from
  {
    if from > |s| - |pat| then -1
    else if s[from..from + |pat|] == pat then from
    else IndexFrom(s, pat, from + 1)
  }

  /** `s.indexOf(pat)`, by which Java defines `contains`: non-negative
      exactly when `pat` is contained, and then the first occurrence. */
  function IndexOf(s: string, pat: string): (r: int)
    ensures r >= 0 <==> Contains(s, pat)
    ensures r >= 0 ==> OccursAt(s, pat, r) && NoneBefore(s, pat, r)
  {
    IndexFrom(s, pat, 0)
  }

  // Lemmas for settling `Contains` on a concrete string.

  /** A string built around `pat` contains it. */
  lemma ContainsInfix(a: string, pat: string, b: string)
    ensures Contains(a + pat + b, pat)
  {
    assert (a + pat + b)[|a|..|a| + |pat|] == pat;
    assert OccursAt(a + pat + b, pat, |a|);
  }

  /** An occurrence of `w` is an occurrence of its lower case once the
      string is lowered. */
  lemma LoweredOccurrence(s: string, w: string, i: int)
    requires OccursAt(s, w, i)
    ensures OccursAt(ToLowerCase(s), ToLowerCase(w), i)
  {
    var l := ToLowerCase(s);
    forall j | 0 <= j < |w| ensures l[i..i + |w|][j] == ToLowerCase(w)[j] {
      assert s[i..i + |w|][j] == w[j];
    }
  }

  /** Lowering keeps every containment, with the pattern lowered too. */
  lemma LoweredContains(s: string, w: string)
    ensures Contains(s, w) ==> Contains(ToLowerCase(s), ToLowerCase(w))
  {
    if Contains(s, w) {
      var i :| 0 <= i <= |s| - |w| && OccursAt(s, w, i);
      LoweredOccurrence(s, w, i);
    }
  }

  /** Lower-casing a string lowers each of its parts. */
  lemma ToLowerCaseConcat(a: string, b: string)
    ensures ToLowerCase(a + b) == ToLowerCase(a) + ToLowerCase(b)
  {
  }

  /** A string built around a word whose lower case is `pat` contains `pat`
      once lowered. */
  lemma LoweredContainsInfix(a: string, w: string, b: string, pat: string)
    requires ToLowerCase(w) == pat
    ensures Contains(ToLowerCase(a + w + b), pat)
  {
    ToLowerCaseConcat(a + w, b);
    ToLowerCaseConcat(a, w);
    ContainsInfix(ToLowerCase(a), pat, ToLowerCase(b));
  }

  /** No window starting before `n` holds `pat`. */
  predicate NoneBefore(s: string, pat: string, n: int)
  {
    forall i | 0 <= i < n :: !OccursAt(s, pat, i)
  }

  /** One mismatching character rules out the window at `n`. */
  lemma NoneBeforeNext(s: string, pat: string, n: int, k: int)
    requires NoneBefore(s, pat, n)
    requires 0 <= n <= |s| - |pat| && 0 <= k < |pat| && s[n + k] != pat[k]
    ensures NoneBefore(s, pat, n + 1)
  {
    assert !OccursAt(s, pat, n) by {
      assert s[n..n + |pat|][k] == s[n + k];
    }
  }

  /** Once every window is ruled out, `pat` is not contained. */
  lemma NoneAtAll(s: string, pat: string)
    requires NoneBefore(s, pat, |s| - |pat| + 1)
    ensures !Contains(s, pat)
  {
  }

  /** The upper-case partner of an ASCII lower-case letter. */
  function UpperChar(c: char): (r: char)
    requires 'a' <= c <= 'z'
    ensures 'A' <= r <= 'Z' && r != c
  {
    (c as int - 32) as char
  }

  /** A pattern with a character the string lacks is never contained. */
  lemma AbsentCharNotContained(s: string, pat: string, k: int)
    requires 0 <= k < |pat| && pat[k] !in s
    ensures !Contains(s, pat)
  {
    forall i | 0 <= i <= |s| - |pat| ensures !OccursAt(s, pat, i) {
      assert s[i..i + |pat|][k] == s[i + k];
      assert s[i + k] in s;
    }
  }

  /** A pattern with a lower-case letter the string lacks in both cases
      is not contained in the lowered string. */
  lemma AbsentLetterNotContainedLowered(s: string, pat: string, k: int)
    requires 0 <= k < |pat| && 'a' <= pat[k] <= 'z'
    requires pat[k] !in s && UpperChar(pat[k]) !in s
    ensures !Contains(ToLowerCase(s), pat)
  {
    var l := ToLowerCase(s);
    forall j | 0 <= j < |s| ensures l[j] != pat[k] {
      assert s[j] in s;
    }
    forall i | 0 <= i <= |l| - |pat| ensures !OccursAt(l, pat, i) {
      assert l[i..i + |pat|][k] == l[i + k];
    }
  }

  /** The replacement `replace("\n", " ")` makes in one character. */
  function CollapseChar(c: char): (r: char)
    ensures r != '\n'
    ensures c == '\n' ==> r == ' '
    ensures c != '\n' ==> r == c
  {
    if c == '\n' then ' ' else c
  }

  /** `s.replace("\n", " ")`: the result is a single physical line of the
      same length, every newline turned into a space and every other
      character unchanged. */
  function CollapseNewlines(s: string): (r: string)
    ensures |r| == |s|
    ensures forall i :: 0 <= i < |s| ==> r[i] == CollapseChar(s[i])
    ensures '\n' !in r
    decreases |s|
  {
    if |s| == 0 then ""
    else [CollapseChar(s[0])] + CollapseNewlines(s[1..])
  }

  /** Replacing newlines in a concatenation replaces them in each part. */
  lemma {:induction false} CollapseConcat(a: string, b: string)
    ensures CollapseNewlines(a + b) == CollapseNewlines(a) + CollapseNewlines(b)
  {
    var l, r := CollapseNewlines(a + b), CollapseNewlines(a) + CollapseNewlines(b);
    assert |l| == |r|;
    forall i | 0 <= i < |l| ensures l[i] == r[i] {
      if i < |a| {
        assert (a + b)[i] == a[i];
      } else {
        assert (a + b)[i] == b[i - |a|];
      }
    }
  }

  /** A line without newlines is left exactly as it is, so replacing
      twice is the same as replacing once. */
  lemma {:induction false} CollapseFixesNewlineFree(s: string)
    requires '\n' !in s
    ensures CollapseNewlines(s) == s
  {
    var r := CollapseNewlines(s);
    forall i | 0 <= i < |s| ensures r[i] == s[i] {
      assert s[i] in s;
    }
  }

  lemma CollapseIdempotent(s: string)
    ensures CollapseNewlines(CollapseNewlines(s)) == CollapseNewlines(s)
  {
    CollapseFixesNewlineFree(CollapseNewlines(s));
  }

  /** `s.startsWith(p)`. */
  predicate StartsWith(s: string, p: string)
  {
    |p| <= |s| && s[..|p|] == p
  }

  /** Replacing newlines after a newline-free prefix keeps the prefix. */
  lemma CollapseKeepsPrefix(p: string, x: string)
    requires '\n' !in p
    ensures StartsWith(CollapseNewlines(p + x), p)
  {
    CollapseConcat(p, x);
    CollapseFixesNewlineFree(p);
  }

  /** The two characters, a star then a slash, that end a Java block
      comment wherever they appear inside it. */
  const CommentCloser: string := "*/"

  /** A star at `i` immediately followed by a slash. */
  predicate ClosesAt(s: string, i: int)
    requires 0 <= i < |s| - 1
  {
    s[i] == '*' && s[i + 1] == '/'
  }

  /** No star in `s` is immediately followed by a slash: written inside a
      Javadoc comment, `s` cannot end it. */
  predicate NoCloser(s: string)
  {
    forall i | 0 <= i < |s| - 1 :: !ClosesAt(s, i)
  }

  /** The character-level definition agrees with `contains`. */
  lemma NoCloserNotContains(s: string)
    ensures NoCloser(s) <==> !Contains(s, CommentCloser)
  {
    if !NoCloser(s) {
      var i :| 0 <= i < |s| - 1 && ClosesAt(s, i);
      assert OccursAt(s, CommentCloser, i);
    }
    if Contains(s, CommentCloser) {
      var i :| 0 <= i <= |s| - 2 && OccursAt(s, CommentCloser, i);
      assert s[i..i + 2][0] == s[i] && s[i..i + 2][1] == s[i + 1];
      assert ClosesAt(s, i);
    }
  }

  /** A text without a slash holds no closer. */
  lemma NoCloserWithoutSlash(s: string)
    requires '/' !in s
    ensures NoCloser(s)
  {
    forall i | 0 <= i < |s| - 1 ensures !ClosesAt(s, i) {
      assert s[i + 1] in s;
    }
  }

  /** A concatenation holds a closer exactly when a part does or the
      first part ends with a star and the second begins with a slash. */
  lemma NoCloserConcat(a: string, b: string)
    ensures NoCloser(a + b) <==>
              NoCloser(a) && NoCloser(b) && !(|a| > 0 && |b| > 0 && a[|a| - 1] == '*' && b[0] == '/')
  {
    var ab := a + b;
    if NoCloser(ab) {
      forall i | 0 <= i < |a| - 1 ensures !ClosesAt(a, i) {
        assert ab[i] == a[i] && ab[i + 1] == a[i + 1];
        assert !ClosesAt(ab, i);
      }
      forall i | 0 <= i < |b| - 1 ensures !ClosesAt(b, i) {
        assert ab[|a| + i] == b[i] && ab[|a| + i + 1] == b[i + 1];
        assert !ClosesAt(ab, |a| + i);
      }
      if |a| > 0 && |b| > 0 {
        assert ab[|a| - 1] == a[|a| - 1] && ab[|a|] == b[0];
        assert !ClosesAt(ab, |a| - 1);
      }
    }
    if NoCloser(a) && NoCloser(b) && !(|a| > 0 && |b| > 0 && a[|a| - 1] == '*' && b[0] == '/') {
      forall i | 0 <= i < |ab| - 1 ensures !ClosesAt(ab, i) {
        if i + 1 < |a| {
          assert ab[i] == a[i] && ab[i + 1] == a[i + 1];
          assert !ClosesAt(a, i);
        } else if i + 1 == |a| {
          assert ab[i] == a[|a| - 1] && ab[i + 1] == b[0];
        } else {
          assert ab[i] == b[i - |a|] && ab[i + 1] == b[i - |a| + 1];
          assert !ClosesAt(b, i - |a|);
        }
      }
    }
  }

  /** After a part ending in a space, a closer can come from either part
      only. */
  lemma NoCloserAfterSpace(a: string, b: string)
    requires |a| > 0 && a[|a| - 1] == ' '
    ensures NoCloser(a + b) <==> NoCloser(a) && NoCloser(b)
  {
    NoCloserConcat(a, b);
  }

  /** Two texts joined by a space hold a closer exactly when one of them
      does. */
  lemma NoCloserSpaced(a: string, b: string)
    ensures NoCloser(a + " " + b) <==> NoCloser(a) && NoCloser(b)
  {
    NoCloserConcat(a, " ");
    NoCloserAfterSpace(a + " ", b);
  }

  /** The newline replacement neither makes nor removes a closer. */
  lemma CollapseKeepsNoCloser(s: string)
    ensures NoCloser(CollapseNewlines(s)) <==> NoCloser(s)
  {
    var r := CollapseNewlines(s);
    forall i | 0 <= i < |s| - 1 ensures ClosesAt(r, i) <==> ClosesAt(s, i) {
      assert r[i] == CollapseChar(s[i]) && r[i + 1] == CollapseChar(s[i + 1]);
    }
  }

  /** `StringUtility.isTrue`: the string equals "true" ignoring ASCII case;
      a null string is false. */
  function IsTrue(j: JString): (b: bool)
    ensures j.Null? ==> !b
    ensures b ==> j.Str? && |j.value| == 4
  {
    j.Str? && ToLowerCase(j.value) == "true"
  }

  /** The spellings `isTrue` accepts are exactly the four-letter words whose
      every letter is the lower- or upper-case letter of "true". */
  lemma IsTrueSpellings(j: JString)
    ensures IsTrue(j) <==>
              j.Str? && |j.value| == 4 &&
              forall i :: 0 <= i < 4 ==> j.value[i] == "true"[i] || j.value[i] == "TRUE"[i]
  {
    if j.Str? && |j.value| == 4 {
      var s := j.value;
      var l := ToLowerCase(s);
      if forall i :: 0 <= i < 4 ==> s[i] == "true"[i] || s[i] == "TRUE"[i] {
        assert l == "true";
      }
      if l == "true" {
        forall i | 0 <= i < 4 ensures s[i] == "true"[i] || s[i] == "TRUE"[i] {
          assert l[i] == LowerChar(s[i]);
        }
      }
    }
  }
}

=== FILE: method_classifier.dfy ===
/**
  The keyword classifier of `addGeneralMethodComment`: the description
  lines a data-access method gets from the words in its name. Four
  independent substring tests run in the order insert, delete, update,
  select. The primary tests are case-sensitive; the "tagged" sub-test of
  insert and update looks for "select" in the lower-cased name.
 */
module MethodClassifier {
  import opened JavaText

  const InsertWord: string := "insert"
  const DeleteWord: string := "delete"
  const UpdateWord: string := "update"
  const SelectWord: string := "select"

  /** "save, tagged" */
  const SaveTagged: string := " * 保存带标签"
  /** "save, untagged" */
  const SaveUntagged: string := " * 保存不带标签"
  /** "delete by primary key" */
  const DeleteByKey: string := " * 根据主键删除"
  /** "update, tagged" */
  const UpdateTagged: string := " * 更新带标签"
  /** "update, untagged" */
  const UpdateUntagged: string := " * 更新不带标签"
  /** "query by primary key" */
  const QueryByKey: string := " * 根据主键查询"

  /** `name.toLowerCase().contains("select")`: the name mentions "select"
      in any ASCII case, so a name passing the case-sensitive query test
      always passes this one. */
  function MentionsSelect(name: string): (b: bool)
    ensures Contains(name, SelectWord) ==> b
  {
    assert ToLowerCase(SelectWord) == SelectWord;
    LoweredContains(name, SelectWord);
    Contains(ToLowerCase(name), SelectWord)
  }

  /** Any spelling of "select", whatever the case of its letters, makes the
      name a tagged one. */
  lemma MentionsSelectAnySpelling(name: string, w: string)
    requires ToLowerCase(w) == SelectWord
    ensures Contains(name, w) ==> MentionsSelect(name)
  {
    LoweredContains(name, w);
  }

  /** Conversely, a tagged name contains some case spelling of "select". */
  lemma TaggedOnlyBySpelling(name: string)
    requires MentionsSelect(name)
    ensures exists w :: ToLowerCase(w) == SelectWord && Contains(name, w)
  {
    var low := ToLowerCase(name);
    var i :| 0 <= i <= |low| - |SelectWord| && OccursAt(low, SelectWord, i);
    var w := name[i..i + |SelectWord|];
    assert ToLowerCase(w) == low[i..i + |SelectWord|];
    assert OccursAt(name, w, i);
  }

  /** The keyword lines, as the method body appends them. */
  function KeywordLines(name: string): (r: seq<string>)
    ensures |r| <= 4
    ensures r == [] <==>
              !Contains(name, InsertWord) && !Contains(name, DeleteWord)
              && !Contains(name, UpdateWord) && !Contains(name, SelectWord)
  {
    (if Contains(name, InsertWord) then
       [if MentionsSelect(name) then SaveTagged else SaveUntagged]
     else [])
    + (if Contains(name, DeleteWord) then [DeleteByKey] else [])
    + (if Contains(name, UpdateWord) then
         [if MentionsSelect(name) then UpdateTagged else UpdateUntagged]
       else [])
    + (if Contains(name, SelectWord) then [QueryByKey] else [])
  }

  // An independent reference: the classifier as an ordered table of
  // (keyword, line when tagged, line when untagged) rules, each applied on
  // its own. A rule whose two lines agree has no tagged variant.

  datatype Rule = Rule(keyword: string, tagged: string, untagged: string)

  const Rules: seq<Rule> := [
    Rule(InsertWord, SaveTagged, SaveUntagged),
    Rule(DeleteWord, DeleteByKey, DeleteByKey),
    Rule(UpdateWord, UpdateTagged, UpdateUntagged),
    Rule(SelectWord, QueryByKey, QueryByKey)
  ]

  /** The lines one rule contributes for `name`: none or one. */
  function RuleLines(rule: Rule, name: string): (r: seq<string>)
    ensures |r| <= 1
    ensures r != [] <==> Contains(name, rule.keyword)
  {
    if Contains(name, rule.keyword) then
      [if MentionsSelect(name) then rule.tagged else rule.untagged]
    else []
  }

  function ApplyRules(rules: seq<Rule>, name: string): (r: seq<string>)
    ensures |r| <= |rules|
  {
    if |rules| == 0 then []
    else RuleLines(rules[0], name) + ApplyRules(rules[1..], name)
  }

  lemma ApplyFourRules(a: Rule, b: Rule, c: Rule, d: Rule, name: string)
    ensures ApplyRules([a, b, c, d], name)
            == RuleLines(a, name) + RuleLines(b, name) + RuleLines(c, name) + RuleLines(d, name)
  {
    assert [a, b, c, d][1..] == [b, c, d];
    assert [b, c, d][1..] == [c, d];
    assert [c, d][1..] == [d];
    assert [d][1..] == [];
    assert ApplyRules([d], name) == RuleLines(d, name) + [];
    assert ApplyRules([c, d], name) == RuleLines(c, name) + ApplyRules([d], name);
    assert ApplyRules([b, c, d], name) == RuleLines(b, name) + ApplyRules([c, d], name);
  }

  /** The method body and the rule table agree on every name. */
  lemma KeywordLinesFollowRuleTable(name: string)
    ensures KeywordLines(name) == ApplyRules(Rules, name)
  {
    ApplyFourRules(Rules[0], Rules[1], Rules[2], Rules[3], name);
    assert Rules == [Rules[0], Rules[1], Rules[2], Rules[3]];
  }

  /** Position of a keyword line in the fixed order insert, delete,
      update, select. */
  function Rank(line: string): (k: int)
    ensures 0 <= k <= 3
  {
    if line == SaveTagged || line == SaveUntagged then 0
    else if line == DeleteByKey then 1
    else if line == UpdateTagged || line == UpdateUntagged then 2
    else 3
  }

  /** At most one line per keyword, in the order insert, delete, update,
      select; hence never more than four lines. */
  lemma KeywordLinesOrdered(name: string)
    ensures |KeywordLines(name)| <= 4
    ensures forall i, j :: 0 <= i < j < |KeywordLines(name)| ==>
              Rank(KeywordLines(name)[i]) < Rank(KeywordLines(name)[j])
  {
  }

  /** Which line appears is decided by its own test alone: each line is
      present exactly when its keyword (and, for the insert and update
      lines, the lower-cased "select" test) matches. */
  lemma KeywordLineMembership(name: string)
    ensures SaveTagged in KeywordLines(name) <==> Contains(name, InsertWord) && MentionsSelect(name)
    ensures SaveUntagged in KeywordLines(name) <==> Contains(name, InsertWord) && !MentionsSelect(name)
    ensures DeleteByKey in KeywordLines(name) <==> Contains(name, DeleteWord)
    ensures UpdateTagged in KeywordLines(name) <==> Contains(name, UpdateWord) && MentionsSelect(name)
    ensures UpdateUntagged in KeywordLines(name) <==> Contains(name, UpdateWord) && !MentionsSelect(name)
    ensures QueryByKey in KeywordLines(name) <==> Contains(name, SelectWord)
  {
  }
}
